=== FILE: README.md ===
# SkyDB client: request construction

A Dafny model of the request-construction layer of `SkyDB::Client`
(`lib/skydb/client.rb`), the Ruby client of the Sky event-store server. Each
public operation of the client takes its arguments and ends in exactly one of
two ways: it raises `ArgumentError` locally before anything reaches the
connection, or it hands exactly one `(verb, path, body)` request to `send` and
maps the reply to its return value.

Modules, leaves first:

- `Wrappers` (`wrappers.dfy`): `Option` (Ruby's nil is `None`) and `Result`.
- `Values` (`values.dfy`): JSON documents, the entity records (`Table`,
  `Property`, `Event`), `Loose<E>` for arguments given either as an entity or
  as a Hash, option values (`Symbol`, `Text`, nil), and the error taxonomy.
- `Paths`, `Routes` (`paths.dfy`): paths as joins of segments, splitting a
  path back at '/', and the resources the paths name.
- `Http` (`http.dfy`): verbs, bodies, the envelope a connection receives
  and its reply.
- `Config` (`config.dfy`): the constructor defaults, `connection=` and `send`.
- `Plans` (`plans.dfy`): one planning function per public operation, the
  insertion-method-to-verb mapping and the query payload.
- `Api` (`api.dfy`): every operation as a `Call`, an independent statement
  of which calls are acceptable and what they address, running a plan against
  a connection, and `ping`.
- `AsWritten` (`as_written.dfy`): `update_property` and `delete_property` as
  the code is written (see Findings).

`Plans.UpdateProperty` and `Plans.DeleteProperty` convert a Hash argument
before reading its name, the corrected order of the finding below, and `Api`
runs these corrected plans. As written, a Hash property raises
`NoMethodError` instead (`AsWritten`); rows whose statement rests on the
corrected order say "(corrected order)".

The connection is a parameter: a function from `(connection, envelope)` to a
reply (a parsed body, or the error it raised). `SkyDB.format_timestamp` is a
parameter too (`format: Instant -> string`); its definition is not part of
this model.

The operations' own argument checks raise `ArgumentError`, an unknown
insertion method included; `connection=` (an unknown connection type) and
`send` (no connection) raise `SkyError` instead. A query String is sent as a
JSON string body, like any other query that is not an Array. Only the Symbols
`:merge` and `:replace` are accepted as insertion methods; the String "merge"
is refused.

## Model

| member | source | states |
|---|---|---|
| Config.New | lib/skydb/client.rb:39-44 | construction fails only for an unknown connection type Symbol; an absent connection option selects a Ruby connection and a given one is selected as `connection=` would; host and port are the given values or `localhost` and 8585; ssl is on only when given as true |
| Config.DefaultClient | lib/skydb/client.rb:20-44 | with no options the client uses a Ruby connection to localhost, port 8585, without SSL |
| Config.GivenOptionsKept | lib/skydb/client.rb:39-44 | every option given is kept as given, including a port of 0 (the `or`-default replaces only nil and false) |
| Config.SelectConnection | lib/skydb/client.rb:76-89 | `:ruby` creates a Ruby connection and `:synchrony` a Synchrony connection, any other Symbol raises "Invalid connection type: <name>", an object is stored as it is, nil leaves no connection |
| Config.SetConnection | lib/skydb/client.rb:76-89 | assigning a connection succeeds exactly when selection does, and leaves host, port and ssl unchanged |
| Config.Send | lib/skydb/client.rb:341-356 | with no connection `send` raises "Connection unavailable" and the connection receives nothing; otherwise the connection receives one envelope carrying the client's host, port and ssl and the verb, path and body unchanged, and its reply is the result |
| Plans.ResolveMethod | lib/skydb/client.rb:255-268 | an absent `:method` is `:merge`; the method resolves exactly when it is `:merge` or `:replace`, to the verb that communicates that mode; otherwise "Invalid event insertion method: <value>" |
| Plans.InsertionModeRoundTrip | lib/skydb/client.rb:263-268 | PUT and PATCH are exactly what `:replace` and `:merge` resolve to |
| Plans.DefaultMethodIsMerge | lib/skydb/client.rb:255-266 | omitting the method is the same as `:merge`, which is sent as PATCH |
| Plans.QueryPayload | lib/skydb/client.rb:304 | the query body is never a bare Array: an Array is wrapped as `{steps: q}`, anything else is sent unchanged |
| Plans.QueryPayloadIdempotent | lib/skydb/client.rb:304 | preparing an already prepared query body changes nothing |
| Plans.StepsArrayLikeStepsObject | lib/skydb/client.rb:304-305 | a bare step Array and a `{steps: [...]}` definition send the same request |
| Plans.GetTables | lib/skydb/client.rb:103-107 | always issues a GET without body and maps the reply to a list of tables |
| Plans.GetTable | lib/skydb/client.rb:110-115 | refused with "Table name required" exactly when the name is nil; otherwise a GET without body mapped to a table |
| Plans.CreateTable | lib/skydb/client.rb:120-126 | refused exactly when the table is nil; otherwise a POST whose body is the table's document, whether it came as a Hash or an entity |
| Plans.DeleteTable | lib/skydb/client.rb:131-137 | refused exactly when the table is nil; otherwise a DELETE without body returning nil |
| Plans.GetProperties | lib/skydb/client.rb:147-152 | refused exactly when the table is nil; otherwise a GET mapped to a list of properties |
| Plans.GetProperty | lib/skydb/client.rb:160-164 | refused exactly when the table is nil: the property name is not checked |
| Plans.CreateProperty | lib/skydb/client.rb:169-175 | refused exactly when the table or the property is nil, with the first failing check's message; otherwise a POST of the property's document |
| Plans.UpdateProperty | lib/skydb/client.rb:180-187 | (corrected order) refused exactly when the table or property is nil or the name prints as "", with the message of the first failing check; otherwise a PATCH of the property's document |
| Plans.DeleteProperty | lib/skydb/client.rb:192-199 | (corrected order) refused exactly when the table or property is nil or the name prints as "", with the message of the first failing check; otherwise a DELETE without body returning nil |
| Plans.PropertyHashLikeEntity | lib/skydb/client.rb:184-196 | (corrected order) a Hash and the property it converts to are planned identically |
| Plans.MergeObjects | lib/skydb/client.rb:212-218 | refused exactly when table, destination or source id is nil, with that check's message; otherwise one POST with body `{id: src}` returning nil |
| Plans.GetEvents | lib/skydb/client.rb:228-234 | refused exactly when the table or object id is nil; otherwise a GET mapped to a list of events |
| Plans.GetEvent | lib/skydb/client.rb:239-245 | refused exactly when table, object id or timestamp is nil, with the message of the first failing check; otherwise a GET mapped to an event |
| Plans.AddEvent | lib/skydb/client.rb:254-273 | refused exactly when table, object id, event or its timestamp is nil or the method does not resolve, with the message of the first failing check in that order (the method is resolved last); otherwise sent with the resolved verb and the event's document as body |
| Plans.ArgumentChecksPrecedeMethod | lib/skydb/client.rb:257-267 | a nil object id is reported as "Object identifier required" even when the insertion method is also unknown |
| Plans.DeleteEvent | lib/skydb/client.rb:280-288 | refused exactly when table, object id, event or its timestamp is nil, with the message of the first failing check; otherwise a DELETE without body |
| Plans.EventOperationsShareAddress | lib/skydb/client.rb:243-286 | reading, writing and deleting the event at one timestamp use the same path, built from the same formatted timestamp |
| Plans.Query | lib/skydb/client.rb:301-306 | refused exactly when the table or the query is nil; otherwise a POST of the prepared query body whose reply is returned as it is |
| Plans.Stats | lib/skydb/client.rb:313-316 | refused exactly when the table is nil; otherwise a GET whose reply is returned as it is |
| Plans.TablePathsLiteral | lib/skydb/client.rb:104-135 | for every name, the table paths are `/tables` and `/tables/<name>`, the name inserted as it is |
| Plans.PropertyPathsLiteral | lib/skydb/client.rb:149-197 | for every table and property name, the property paths are `/tables/<table>/properties` and `/tables/<table>/properties/<name>`, a nil name inserted as the empty string |
| Plans.MergePathLiteral | lib/skydb/client.rb:216 | for every table and destination id, the merge path is `/tables/<table>/objects/<dest>/merge` |
| Plans.EventReadPathsLiteral | lib/skydb/client.rb:231-243 | for every table, object id and timestamp, events are read from `/tables/<table>/objects/<id>/events` and `.../events/<formatted timestamp>` |
| Plans.EventPathLiteral | lib/skydb/client.rb:243-286 | the path of one event is `/tables/<table>/objects/<id>/events/<stamp>` with every part inserted as it is |
| Plans.AddEventPathLiteral | lib/skydb/client.rb:271 | an issued `add_event` addresses `/tables/<table>/objects/<id>/events/<formatted event timestamp>` |
| Plans.DeleteEventPathLiteral | lib/skydb/client.rb:286 | an issued `delete_event` addresses `/tables/<table>/objects/<id>/events/<formatted event timestamp>` |
| Plans.QueryPathsLiteral | lib/skydb/client.rb:305-315 | for every table name, queries go to `/tables/<table>/query` and stats to `/tables/<table>/stats` |
| Plans.SlashInNameIsAmbiguous | lib/skydb/client.rb:231 | names are interpolated unescaped, so for every `t`, `x` and id, `get_events` on the table `t/objects/x` with object `id` and on the table `t` with object `x/objects/id` requests the same path |
| Api.PlanIssuesIffAcceptable | lib/skydb/client.rb:110-303 | (corrected order) for every operation, a request is planned exactly when no required argument is nil, no updated or deleted property name is blank and the insertion method is known; every refusal is an `ArgumentError` |
| Api.IssuedRequestVerb | lib/skydb/client.rb:103-316 | (corrected order) each accepted call uses its operation's verb (PUT only for `:replace`), and carries a body exactly for POST, PUT and PATCH |
| Api.IssuedRequestRoute | lib/skydb/client.rb:103-316 | (corrected order) when every interpolated name is a non-empty run of RFC 3986 path characters (no '/', '?', '#', '%' or space) other than "." and "..", the path of each accepted call is read back as the resource its arguments name |
| Api.Execute | lib/skydb/client.rb:341-355 | a refused plan raises and reaches no connection; with no connection an issued plan raises "Connection unavailable" and sends nothing; otherwise exactly one envelope is sent, with the plan's verb, path and body and the client's host, port and ssl, and the connection's reply is returned through the operation's mapping while its failure is raised unchanged |
| Api.MissingArgumentSendsNothing | lib/skydb/client.rb:111-303 | a nil required argument raises `ArgumentError` and the connection receives nothing |
| Api.AcceptedCallSendsOnce | lib/skydb/client.rb:103-316 | (corrected order) an accepted call on a connected client sends exactly one envelope, with the operation's verb |
| Api.MergeObjectsPostsSource | lib/skydb/client.rb:212-218 | merging sends one POST with body `{id: src}`, returns nil on success and raises exactly when the connection fails |
| Api.Ping | lib/skydb/client.rb:326-333 | `ping` is true exactly when the GET `/ping` send returns, which needs a connection |
| Api.PingPathIsPingRoute | lib/skydb/client.rb:328 | the path `ping` requests is read back as the ping resource |
| Api.PingIsRescuedRequest | lib/skydb/client.rb:326-333 | `ping` is true exactly when the same request run as an operation returns instead of raising |
| Api.PingFalseOnFailure | lib/skydb/client.rb:326-333 | any failure of the connection, a server error included, makes `ping` false instead of propagating |
| Paths.ParsePathOf | lib/skydb/client.rb:103-316 | a path interpolated from names that contain no '/' splits back into exactly those names, so such paths never collide |
| AsWritten.UpdateProperty | lib/skydb/client.rb:180-187 | as written, a request is planned only for a Property entity with a non-blank name: a Hash never gets through |
| AsWritten.DeleteProperty | lib/skydb/client.rb:192-199 | as written, a request is planned only for a Property entity with a non-blank name |
| AsWritten.HashPropertyNeverSent | lib/skydb/client.rb:183-184 | as written, every Hash property raises `NoMethodError` for `name` and sends nothing |
| AsWritten.AgeHashCounterexample | lib/skydb/client.rb:183-185 | the Hash for property "age" is refused as written but sent in the corrected order |
| AsWritten.AgreesOnEntities | lib/skydb/client.rb:180-199 | for nil and entity arguments the code as written and the corrected order plan the same |

## Findings

| source | as written | input that shows it | evidently intended | confidence | as-written member | corrected member |
|---|---|---|---|---|---|---|
| lib/skydb/client.rb:183-184 (and 195-196) | `update_property` and `delete_property` read `property.name` before converting a Hash argument into a `Property` | `update_property(table, {name: 'age', data_type: 'integer'})`: a Ruby Hash has no `name` method, so `NoMethodError` is raised and the conversion on the next line is never reached | convert the Hash first, then check its name, as `add_event` and `delete_event` do for events (lines 260-261, 284-285) | medium; not executed (a `name` method added to Hash elsewhere, for instance by a core extension, would change it) | AsWritten.HashPropertyNeverSent, AsWritten.AgeHashCounterexample | Plans.UpdateProperty, Plans.DeleteProperty, Plans.PropertyHashLikeEntity |

## Left out

- The connections in `lib/skydb/connection/ruby.rb` and `lib/skydb/connection/synchrony.rb`: HTTP I/O over Net::HTTP and EventMachine, and JSON parsing with the json library; they are the `Transport` parameter. Two things in them are not modelled: `synchrony.rb` has no branch for PUT (so `:replace` cannot work over it), and its class is named `EventMachine` while `client.rb:82` instantiates `Synchrony`.
- Cooperative scheduling in `synchrony.rb`: concurrency, outside a sequential model.
- `SkyDB.format_timestamp`, `SkyDB.normalize` and `SkyDB.denormalize`: their definitions are not part of this model; the formatter is a parameter and the reshaper is not modelled.
- The entity classes `Table`, `Property` and `Event` and their `from_hash`/`to_hash`: records with the fields the client reads; request bodies are the entity itself (`TableDoc`, `PropertyDoc`, `EventDoc`) and parsed replies stay symbolic (`Parsed`, `ParsedEach`), so a reply that `from_hash` or `map` cannot handle is not modelled.
- `create_table` and `delete_table` set `table.client = self` on the entity: a side effect on the caller's object, not part of the request.
- Arguments other than nil, an entity, a Hash or a string: `false` passed as an argument, a Hash table given to operations other than `create_table`/`delete_table`, and non-integer JSON numbers.
- Config.New: the `:ssl` option is a boolean here; the client keeps any truthy value (a String, say) and the Ruby connection then turns SSL on, which the model does not represent.
- Api.IssuedRequestRoute: says nothing about names holding '/', '?', '#', '%', a space or any other character outside RFC 3986 `pchar`, nor about the segments "", "." and ".." (a nil property name prints as ""). `RouteOf` splits at '/' only, and a server would cut the request line at a space, read a query or fragment, decode escapes or remove dot segments (section 5.2.4 of RFC 3986).
- Api.Ping: every modelled failure is taken to be rescued; the bare `rescue` at `lib/skydb/client.rb:329` catches only `StandardError`, and the model assumes every error a connection raises is one (an `Exception` outside that class would propagate from `ping`).
- Debug logging, SSL verification settings and `test/test_helper.rb`.
- The integration tests' assertions about merge ordering, event replace/merge results and query results: they are the server's behaviour, not the client's.

=== FILE: api.dfy ===
/**
 * The public surface of the client: every operation as a `Call`, what it
 * plans, what running the plan against a connection does, and `ping`.
 */
module Api {
  import opened Wrappers
  import opened Values
  import opened Http
  import opened Paths
  import opened Routes
  import opened Config
  import Plans

  /** One call of a public operation with its (possibly nil) arguments. */
  datatype Call =
    | GetTables
    | GetTable(name: Option<string>)
    | CreateTable(newTable: Loose<Table>)
    | DeleteTable(oldTable: Loose<Table>)
    | GetProperties(table: Option<Table>)
    | GetProperty(table: Option<Table>, propertyName: Option<string>)
    | CreateProperty(table: Option<Table>, property: Loose<Property>)
    | UpdateProperty(table: Option<Table>, property: Loose<Property>)
    | DeleteProperty(table: Option<Table>, property: Loose<Property>)
    | MergeObjects(table: Option<Table>, dest: Option<string>, src: Option<string>)
    | GetEvents(table: Option<Table>, objectId: Option<string>)
    | GetEvent(table: Option<Table>, objectId: Option<string>, timestamp: Option<Instant>)
    | AddEvent(table: Option<Table>, objectId: Option<string>, event: Loose<Event>, mode: Option<RubyValue>)
    | DeleteEvent(table: Option<Table>, objectId: Option<string>, event: Loose<Event>)
    | Query(table: Option<Table>, q: Json)
    | Stats(table: Option<Table>)

  /** The plan of a call; `format` is the timestamp formatter the client uses. */
  function PlanCall(c: Call, format: Instant -> string): Plans.Plan {
    match c
    case GetTables => Plans.GetTables()
    case GetTable(n) => Plans.GetTable(n)
    case CreateTable(t) => Plans.CreateTable(t)
    case DeleteTable(t) => Plans.DeleteTable(t)
    case GetProperties(t) => Plans.GetProperties(t)
    case GetProperty(t, n) => Plans.GetProperty(t, n)
    case CreateProperty(t, p) => Plans.CreateProperty(t, p)
    case UpdateProperty(t, p) => Plans.UpdateProperty(t, p)
    case DeleteProperty(t, p) => Plans.DeleteProperty(t, p)
    case MergeObjects(t, d, s) => Plans.MergeObjects(t, d, s)
    case GetEvents(t, id) => Plans.GetEvents(t, id)
    case GetEvent(t, id, ts) => Plans.GetEvent(t, id, ts, format)
    case AddEvent(t, id, e, m) => Plans.AddEvent(t, id, e, m, format)
    case DeleteEvent(t, id, e) => Plans.DeleteEvent(t, id, e, format)
    case Query(t, q) => Plans.Query(t, q)
    case Stats(t) => Plans.Stats(t)
  }

  // ---------------------------------------------------------------------------
  // Which calls are acceptable, stated independently of the plans
  // ---------------------------------------------------------------------------

  /** Some argument the operation requires is nil (for events: the event or its timestamp). */
  predicate MissingArgument(c: Call) {
    match c
    case GetTables => false
    case GetTable(n) => n.None?
    case CreateTable(t) => t.Nil?
    case DeleteTable(t) => t.Nil?
    case GetProperties(t) => t.None?
    case GetProperty(t, _) => t.None?
    case CreateProperty(t, p) => t.None? || p.Nil?
    case UpdateProperty(t, p) => t.None? || p.Nil?
    case DeleteProperty(t, p) => t.None? || p.Nil?
    case MergeObjects(t, d, s) => t.None? || d.None? || s.None?
    case GetEvents(t, id) => t.None? || id.None?
    case GetEvent(t, id, ts) => t.None? || id.None? || ts.None?
    case AddEvent(t, id, e, _) => t.None? || id.None? || e.Nil? || e.Coerced().timestamp.None?
    case DeleteEvent(t, id, e) => t.None? || id.None? || e.Nil? || e.Coerced().timestamp.None?
    case Query(t, q) => t.None? || q.JNull?
    case Stats(t) => t.None?
  }

  /** An update or delete of a property whose name prints as the empty string. */
  predicate BlankPropertyName(c: Call) {
    (c.UpdateProperty? || c.DeleteProperty?) && !c.property.Nil? && ToS(c.property.Coerced().name) == ""
  }

  /** An event insertion whose method is neither the Symbol `:merge` nor `:replace`. */
  predicate UnknownInsertionMethod(c: Call) {
    c.AddEvent? && c.mode.Some? && c.mode.value != Symbol("merge") && c.mode.value != Symbol("replace")
  }

  predicate Acceptable(c: Call) {
    !MissingArgument(c) && !BlankPropertyName(c) && !UnknownInsertionMethod(c)
  }

  /** A call is refused locally exactly when it is not acceptable. */
  lemma PlanIssuesIffAcceptable(c: Call, format: Instant -> string)
    ensures PlanCall(c, format).Issue? <==> Acceptable(c)
    ensures PlanCall(c, format).Reject? ==> PlanCall(c, format).error.ArgumentError?
  {
  }

  // ---------------------------------------------------------------------------
  // What an acceptable call addresses
  // ---------------------------------------------------------------------------

  /** The verb each operation uses; an insertion sends PUT only for `:replace`. */
  function ExpectedVerb(c: Call): Verb {
    match c
    case CreateTable(_) => Post
    case CreateProperty(_, _) => Post
    case MergeObjects(_, _, _) => Post
    case Query(_, _) => Post
    case UpdateProperty(_, _) => Patch
    case AddEvent(_, _, _, m) => if m == Some(Symbol("replace")) then Put else Patch
    case DeleteTable(_) => Delete
    case DeleteProperty(_, _) => Delete
    case DeleteEvent(_, _, _) => Delete
    case _ => Get
  }

  /** The resource an acceptable call names, in terms of its arguments. */
  function ExpectedRoute(c: Call, format: Instant -> string): Route
    requires Acceptable(c)
  {
    match c
    case GetTables => AllTables
    case GetTable(n) => OneTable(n.value)
    case CreateTable(_) => AllTables
    case DeleteTable(t) => OneTable(t.Coerced().name)
    case GetProperties(t) => AllProperties(t.value.name)
    case GetProperty(t, n) => OneProperty(t.value.name, ToS(n))
    case CreateProperty(t, _) => AllProperties(t.value.name)
    case UpdateProperty(t, p) => OneProperty(t.value.name, ToS(p.Coerced().name))
    case DeleteProperty(t, p) => OneProperty(t.value.name, ToS(p.Coerced().name))
    case MergeObjects(t, d, _) => ObjectMerge(t.value.name, d.value)
    case GetEvents(t, id) => ObjectEvents(t.value.name, id.value)
    case GetEvent(t, id, ts) => OneEvent(t.value.name, id.value, format(ts.value))
    case AddEvent(t, id, e, _) => OneEvent(t.value.name, id.value, format(e.Coerced().timestamp.value))
    case DeleteEvent(t, id, e) => OneEvent(t.value.name, id.value, format(e.Coerced().timestamp.value))
    case Query(t, _) => TableQuery(t.value.name)
    case Stats(t) => TableStats(t.value.name)
  }

  /** Every string the client interpolates into the path of an acceptable call. */
  function Interpolated(c: Call, format: Instant -> string): seq<string>
    requires Acceptable(c)
  {
    match c
    case GetTables => []
    case GetTable(n) => [n.value]
    case CreateTable(_) => []
    case DeleteTable(t) => [t.Coerced().name]
    case GetProperties(t) => [t.value.name]
    case GetProperty(t, n) => [t.value.name, ToS(n)]
    case CreateProperty(t, _) => [t.value.name]
    case UpdateProperty(t, p) => [t.value.name, ToS(p.Coerced().name)]
    case DeleteProperty(t, p) => [t.value.name, ToS(p.Coerced().name)]
    case MergeObjects(t, d, _) => [t.value.name, d.value]
    case GetEvents(t, id) => [t.value.name, id.value]
    case GetEvent(t, id, ts) => [t.value.name, id.value, format(ts.value)]
    case AddEvent(t, id, e, _) => [t.value.name, id.value, format(e.Coerced().timestamp.value)]
    case DeleteEvent(t, id, e) => [t.value.name, id.value, format(e.Coerced().timestamp.value)]
    case Query(t, _) => [t.value.name]
    case Stats(t) => [t.value.name]
  }

  /** An acceptable call is sent with its operation's verb, and carries a body exactly when that verb writes. */
  lemma IssuedRequestVerb(c: Call, format: Instant -> string)
    requires Acceptable(c)
    ensures PlanCall(c, format).Issue?
    ensures PlanCall(c, format).request.verb == ExpectedVerb(c)
    ensures PlanCall(c, format).request.payload.Some? <==> ExpectedVerb(c) in {Post, Put, Patch}
  {
    PlanIssuesIffAcceptable(c, format);
  }

  /**
   * When every interpolated name is a plain segment, the path of an
   * acceptable call is read back as the resource its arguments name.
   */
  lemma IssuedRequestRoute(c: Call, format: Instant -> string)
    requires Acceptable(c) && AllPlain(Interpolated(c, format))
    ensures PlanCall(c, format).Issue?
    ensures RouteOf(PlanCall(c, format).request.path) == Some(ExpectedRoute(c, format))
  {
    PlanIssuesIffAcceptable(c, format);
    var names := Interpolated(c, format);
    forall i | 0 <= i < |names|
      ensures SlashFree(names[i])
    {
      PlainSegmentSlashFree(names[i]);
    }
    match c
    case GetTables => TablesPathRoute();
    case GetTable(n) => OneTableRoute(names[0]);
    case CreateTable(_) => TablesPathRoute();
    case DeleteTable(t) => OneTableRoute(names[0]);
    case GetProperties(t) => AllPropertiesRoute(names[0]);
    case GetProperty(t, n) => OnePropertyRoute(names[0], names[1]);
    case CreateProperty(t, _) => AllPropertiesRoute(names[0]);
    case UpdateProperty(t, p) => OnePropertyRoute(names[0], names[1]);
    case DeleteProperty(t, p) => OnePropertyRoute(names[0], names[1]);
    case MergeObjects(t, d, _) => ObjectMergeRoute(names[0], names[1]);
    case GetEvents(t, id) => ObjectEventsRoute(names[0], names[1]);
    case GetEvent(t, id, ts) => OneEventRoute(names[0], names[1], names[2]);
    case AddEvent(t, id, e, _) => OneEventRoute(names[0], names[1], names[2]);
    case DeleteEvent(t, id, e) => OneEventRoute(names[0], names[1], names[2]);
    case Query(t, _) => QueryRoute(names[0]);
    case Stats(t) => StatsRoute(names[0]);
  }

  // ---------------------------------------------------------------------------
  // Running a plan against a connection
  // ---------------------------------------------------------------------------

  /** The value an operation returns; entity parsing (`from_hash`) is kept symbolic. */
  datatype Value = ReturnsNil | Data(json: Json) | Parsed(kind: Plans.Kind, source: Json) | ParsedEach(kind: Plans.Kind, source: Json)

  datatype Response = Raised(error: Error) | Returned(value: Value)

  /** What a call did: the envelopes its connection received, and how it ended. */
  datatype Outcome = Outcome(calls: seq<Envelope>, response: Response)

  function Apply(m: Plans.Mapping, body: Json): Value {
    match m
    case ToNil => ReturnsNil
    case ToData => Data(body)
    case ToEntity(k) => Parsed(k, body)
    case ToEntities(k) => ParsedEach(k, body)
  }

  /**
   * Runs a plan: a refusal raises without touching the connection; otherwise
   * the one request goes through `send`, a reply is mapped to the return
   * value and every failure propagates unchanged.
   */
  function Execute(client: Client, plan: Plans.Plan, transport: Transport): (o: Outcome)
    ensures plan.Reject? ==> o == Outcome([], Raised(plan.error))
    ensures |o.calls| <= 1
    ensures o.response.Returned? ==> plan.Issue? && |o.calls| == 1
    ensures forall e :: e in o.calls ==>
              plan.Issue? && e.verb == plan.request.verb && e.path == plan.request.path &&
              e.data == plan.request.payload && e.host == client.host && e.port == client.port && e.ssl == client.ssl
    ensures plan.Issue? && client.connection.None? ==> o == Outcome([], Raised(SkyError("Connection unavailable")))
    ensures plan.Issue? && client.connection.Some? ==>
              && |o.calls| == 1
              && o.response == match transport(client.connection.value, o.calls[0])
                               case Replied(b) => Returned(Apply(plan.mapping, b))
                               case Failed(e) => Raised(e)
  {
    match plan
    case Reject(e) => Outcome([], Raised(e))
    case Issue(request, mapping) =>
      var x := Send(client, request.verb, request.path, request.payload, transport);
      match x.reply
      case Failed(e) => Outcome(x.calls, Raised(e))
      case Replied(body) => Outcome(x.calls, Returned(Apply(mapping, body)))
  }

  /** A public operation called on a client. */
  function Invoke(client: Client, c: Call, format: Instant -> string, transport: Transport): Outcome {
    Execute(client, PlanCall(c, format), transport)
  }

  /** A nil required argument raises `ArgumentError` and no request reaches the connection. */
  lemma MissingArgumentSendsNothing(client: Client, c: Call, format: Instant -> string, transport: Transport)
    requires MissingArgument(c)
    ensures Invoke(client, c, format, transport).calls == []
    ensures Invoke(client, c, format, transport).response.Raised?
    ensures Invoke(client, c, format, transport).response.error.ArgumentError?
  {
    PlanIssuesIffAcceptable(c, format);
  }

  /** An acceptable call on a connected client hands its connection exactly one envelope. */
  lemma AcceptedCallSendsOnce(client: Client, c: Call, format: Instant -> string, transport: Transport)
    requires Acceptable(c) && client.connection.Some?
    ensures |Invoke(client, c, format, transport).calls| == 1
    ensures Invoke(client, c, format, transport).calls[0].verb == ExpectedVerb(c)
  {
    IssuedRequestVerb(c, format);
  }

  /**
   * `merge_objects` posts the source identifier to the destination's merge
   * resource, once, and returns nil when the connection replies.
   */
  lemma MergeObjectsPostsSource(client: Client, table: Table, dest: string, src: string, transport: Transport)
    requires client.connection.Some?
    ensures var o := Invoke(client, MergeObjects(Some(table), Some(dest), Some(src)), _ => "", transport);
            && |o.calls| == 1
            && o.calls[0].verb == Post
            && o.calls[0].data == Some(Body(JObj([("id", JStr(src))])))
            && (o.response.Returned? ==> o.response.value == ReturnsNil)
            && (o.response.Raised? <==> transport(client.connection.value, o.calls[0]).Failed?)
  {
  }

  // ---------------------------------------------------------------------------
  // ping
  // ---------------------------------------------------------------------------

  /** `GET /ping`, whose every failure is reduced to `false`. */
  function Ping(client: Client, transport: Transport): (up: bool)
    ensures up ==> client.connection.Some?
    ensures up <==> Send(client, Get, "/ping", None, transport).reply.Replied?
  {
    assert PathOf(["ping"]) == "/ping";
    var x := Send(client, Get, PathOf(["ping"]), None, transport);
    match x.reply
    case Failed(_) => false
    case Replied(_) => true
  }

  /** The path `ping` requests is read back as the ping resource. */
  lemma PingPathIsPingRoute()
    ensures RouteOf("/ping") == Some(PingRoute)
  {
    PingPathRoute();
    assert PathOf(["ping"]) == "/ping";
  }

  /** `ping` answers true exactly when the same request, run as an operation, would return. */
  lemma PingIsRescuedRequest(client: Client, transport: Transport)
    ensures Ping(client, transport)
        <==> Execute(client, Plans.Issue(Request(Get, "/ping", None), Plans.ToData), transport).response.Returned?
  {
  }

  /** A server error or any other raised failure from the connection becomes `false`. */
  lemma PingFalseOnFailure(client: Client, transport: Transport)
    requires client.connection.Some?
    requires transport(client.connection.value, Envelope(client.host, client.port, client.ssl, Get, "/ping", None)).Failed?
    ensures !Ping(client, transport)
  {
  }
}

=== FILE: as_written.dfy ===
/**
 * `update_property` and `delete_property` exactly as written: they read
 * `property.name` before converting a Hash argument into a Property, and a
 * Ruby Hash has no `name` method. The corrected order is `Plans.UpdateProperty`
 * and `Plans.DeleteProperty`, which the rest of the model uses.
 */
module AsWritten {
  import opened Wrappers
  import opened Values
  import opened Http
  import opened Paths
  import Plans

  /** `property.name` on the argument as given: a Hash raises `NoMethodError`. */
  function NameOf(property: Loose<Property>): (r: Result<Option<string>, Error>)
    requires !property.Nil?
    ensures r.Failure? <==> property.Hash?
  {
    match property
    case Entity(p) => Success(p.name)
    case Hash(_) => Failure(NoMethodError("name"))
  }

  function UpdateProperty(table: Option<Table>, property: Loose<Property>): (p: Plans.Plan)
    ensures p.Issue? <==> table.Some? && property.Entity? && !Plans.BlankName(property.entity)
  {
    if table.None? then Plans.Refuse("Table required")
    else if property.Nil? then Plans.Refuse("Property required")
    else
      match NameOf(property)
      case Failure(e) => Plans.Reject(e)
      case Success(name) =>
        if ToS(name) == "" then Plans.Refuse("Property name required")
        else
          var prop := property.Coerced();
          Plans.Issue(Request(Patch, PathOf(["tables", table.value.name, "properties", ToS(prop.name)]),
                              Some(PropertyDoc(prop))),
                      Plans.ToEntity(Plans.PropertyKind))
  }

  function DeleteProperty(table: Option<Table>, property: Loose<Property>): (p: Plans.Plan)
    ensures p.Issue? <==> table.Some? && property.Entity? && !Plans.BlankName(property.entity)
  {
    if table.None? then Plans.Refuse("Table required")
    else if property.Nil? then Plans.Refuse("Property required")
    else
      match NameOf(property)
      case Failure(e) => Plans.Reject(e)
      case Success(name) =>
        if ToS(name) == "" then Plans.Refuse("Property name required")
        else
          var prop := property.Coerced();
          Plans.Issue(Request(Delete, PathOf(["tables", table.value.name, "properties", ToS(prop.name)]), None),
                      Plans.ToNil)
  }

  /** Every Hash argument, however well-formed, raises `NoMethodError` and sends nothing. */
  lemma HashPropertyNeverSent(table: Table, fields: Property)
    ensures UpdateProperty(Some(table), Hash(fields)) == Plans.Reject(NoMethodError("name"))
    ensures DeleteProperty(Some(table), Hash(fields)) == Plans.Reject(NoMethodError("name"))
  {
  }

  /** The concrete case: a Hash naming the property "age" is refused, while the corrected order sends it. */
  lemma AgeHashCounterexample()
    ensures var prop := Property(Some("age"), false, "integer");
            && UpdateProperty(Some(Table("users")), Hash(prop)).Reject?
            && UpdateProperty(Some(Table("users")), Hash(prop)).error == NoMethodError("name")
            && Plans.UpdateProperty(Some(Table("users")), Hash(prop)).Issue?
  {
  }

  /** On entity arguments the code as written and the corrected order agree. */
  lemma AgreesOnEntities(table: Option<Table>, property: Loose<Property>)
    requires !property.Hash?
    ensures UpdateProperty(table, property) == Plans.UpdateProperty(table, property)
    ensures DeleteProperty(table, property) == Plans.DeleteProperty(table, property)
  {
  }
}

=== FILE: config.dfy ===
/** The client's configuration: constructor defaults, connection selection and `send`. */
module Config {
  import opened Wrappers
  import opened Values
  import opened Http

  const DefaultConnectionType: string := "ruby"
  const DefaultHost: string := "localhost"
  const DefaultPort: int := 8585
  const UseSsl: bool := false

  /** A value assigned to `connection=`: a connection type Symbol, or a connection object. */
  datatype ConnectionSetting = TypeName(symbol: string) | Instance(conn: Connection)

  /** The constructor's options Hash; `None` is an absent or nil entry. */
  datatype Options = Options(
    connection: Option<ConnectionSetting>,
    host: Option<string>,
    port: Option<int>,
    ssl: Option<bool>)

  datatype Client = Client(connection: Option<Connection>, host: string, port: int, ssl: bool)

  /** The Symbols `connection=` knows how to turn into a fresh connection. */
  function KnownType(symbol: string): Option<Connection> {
    if symbol == "ruby" then Some(RubyHttp)
    else if symbol == "synchrony" then Some(Synchrony)
    else None
  }

  /** The connection that `connection=` stores for `value`, or the error it raises. */
  function SelectConnection(value: Option<ConnectionSetting>): (r: Result<Option<Connection>, Error>)
    ensures r.Failure? <==> value.Some? && value.value.TypeName? && KnownType(value.value.symbol).None?
    ensures r.Failure? ==> r.error == SkyError("Invalid connection type: " + value.value.symbol)
    ensures r.Success? ==> (r.value.None? <==> value.None?)
    ensures value.Some? && value.value.Instance? ==> r == Success(Some(value.value.conn))
    ensures value == Some(TypeName("ruby")) ==> r == Success(Some(RubyHttp))
    ensures value == Some(TypeName("synchrony")) ==> r == Success(Some(Synchrony))
  {
    match value
    case None => Success(None)
    case Some(Instance(c)) => Success(Some(c))
    case Some(TypeName(symbol)) =>
      match KnownType(symbol)
      case Some(c) => Success(Some(c))
      case None => Failure(SkyError("Invalid connection type: " + symbol))
  }

  /** Assigns a new connection; host, port and ssl are left as they were. */
  function SetConnection(c: Client, value: Option<ConnectionSetting>): (r: Result<Client, Error>)
    ensures r.Success? <==> SelectConnection(value).Success?
    ensures r.Success? ==> r.value.connection == SelectConnection(value).value
    ensures r.Success? ==> r.value.host == c.host && r.value.port == c.port && r.value.ssl == c.ssl
    ensures r.Failure? ==> r.error == SelectConnection(value).error
  {
    match SelectConnection(value)
    case Success(conn) => Success(c.(connection := conn))
    case Failure(e) => Failure(e)
  }

  /**
   * The constructor: every absent option takes its default. Ruby's `||`
   * replaces only nil or false, so an explicit port 0 is kept.
   */
  function New(options: Options): (r: Result<Client, Error>)
    ensures r.Failure? <==> options.connection.Some? && SelectConnection(options.connection).Failure?
    ensures r.Success? ==> r.value.connection.Some?
    ensures r.Success? ==> (r.value.ssl <==> options.ssl == Some(true))
    ensures r.Success? ==> r.value.host == options.host.GetOr(DefaultHost)
    ensures r.Success? ==> r.value.port == options.port.GetOr(DefaultPort)
    ensures options.connection.None? ==> r.Success? && r.value.connection == Some(RubyHttp)
    ensures options.connection.Some? && r.Success? ==> Success(r.value.connection) == SelectConnection(options.connection)
    ensures r.Failure? ==> r.error == SelectConnection(options.connection).error
  {
    var setting := Some(options.connection.GetOr(TypeName(DefaultConnectionType)));
    match SelectConnection(setting)
    case Failure(e) => Failure(e)
    case Success(conn) =>
      Success(Client(conn, options.host.GetOr(DefaultHost), options.port.GetOr(DefaultPort),
                     options.ssl.GetOr(UseSsl)))
  }

  /** What one `send` did: the envelopes the connection received, and the reply. */
  datatype Exchange = Exchange(calls: seq<Envelope>, reply: Reply)

  /**
   * `send`: refuses when no connection is set, and otherwise hands the
   * connection exactly one envelope carrying the client's host, port and ssl.
   */
  function Send(c: Client, verb: Verb, path: string, data: Option<Payload>, transport: Transport): (x: Exchange)
    ensures |x.calls| <= 1
    ensures x.calls == [] <==> c.connection.None?
    ensures c.connection.None? ==> x.reply == Failed(SkyError("Connection unavailable"))
    ensures forall e :: e in x.calls ==>
              e.host == c.host && e.port == c.port && e.ssl == c.ssl &&
              e.verb == verb && e.path == path && e.data == data
    ensures c.connection.Some? ==> x.reply == transport(c.connection.value, x.calls[0])
  {
    match c.connection
    case None => Exchange([], Failed(SkyError("Connection unavailable")))
    case Some(conn) =>
      var e := Envelope(c.host, c.port, c.ssl, verb, path, data);
      Exchange([e], transport(conn, e))
  }

  /** With no options the client talks plain HTTP to localhost:8585 over a Ruby connection. */
  lemma DefaultClient()
    ensures New(Options(None, None, None, None)) == Success(Client(Some(RubyHttp), "localhost", 8585, false))
  {
  }

  /** Every option that is given is kept as given, including a port of 0. */
  lemma GivenOptionsKept(conn: Connection, host: string, port: int, ssl: bool)
    ensures New(Options(Some(Instance(conn)), Some(host), Some(port), Some(ssl)))
         == Success(Client(Some(conn), host, port, ssl))
  {
  }
}

=== FILE: http.dfy ===
/**
 * What crosses the boundary between the client and its connection: the HTTP
 * verb, the request body, the envelope a connection receives, and its reply.
 * A connection itself is an oracle: a function from envelope to reply.
 */
module Http {
  import opened Wrappers
  import opened Values

  datatype Verb = Get | Post | Put | Patch | Delete

  /** A request body: a JSON document, or an entity's own `to_hash` document. */
  datatype Payload =
    | Body(json: Json)
    | TableDoc(table: Table)
    | PropertyDoc(property: Property)
    | EventDoc(event: Event)

  /** One planned request: verb, path and optional body. */
  datatype Request = Request(verb: Verb, path: string, payload: Option<Payload>)

  /** The connection kinds the client can create by name, or any other object given to it. */
  datatype Connection = RubyHttp | Synchrony | Custom(id: nat)

  /** The options Hash the client hands to `connection.send`. */
  datatype Envelope = Envelope(host: string, port: int, ssl: bool, verb: Verb, path: string, data: Option<Payload>)

  /** A parsed 2xx body, or whatever the connection raised. */
  datatype Reply = Replied(body: Json) | Failed(error: Error)

  /** The behaviour of every connection: the wire transfer is not modelled. */
  type Transport = (Connection, Envelope) -> Reply
}

=== FILE: paths.dfy ===
/**
 * Request paths. The client builds every path by interpolating names and
 * identifiers into a template, without escaping; here a path is the join of
 * its segments, and `ParsePath` splits it back at every '/'. A server reads
 * a path that way only when every segment is a plain one: see `PlainSegment`.
 */
module Paths {
  import opened Wrappers

  /** A segment that contains no '/' and therefore survives the split intact. */
  predicate SlashFree(s: string) {
    '/' !in s
  }

  predicate AllSlashFree(segs: seq<string>) {
    forall i :: 0 <= i < |segs| ==> SlashFree(segs[i])
  }

  /**
   * A character allowed unescaped in a path segment: the `pchar` of section
   * 3.3 of RFC 3986 without percent escapes (unreserved characters,
   * sub-delimiters, ':' and '@').
   */
  predicate PathChar(c: char) {
    ('a' <= c <= 'z') || ('A' <= c <= 'Z') || ('0' <= c <= '9') ||
    c in "-._~" || c in "!$&'()*+,;=" || c == ':' || c == '@'
  }

  /**
   * A segment a server reads literally: made of path characters only (so no
   * '/', '?', '#', '%' or space), and neither empty nor a dot segment, which
   * section 5.2.4 of RFC 3986 removes or merges.
   */
  predicate PlainSegment(s: string) {
    s != "" && s != "." && s != ".." && forall i :: 0 <= i < |s| ==> PathChar(s[i])
  }

  /** A plain segment never holds the separator. */
  lemma PlainSegmentSlashFree(s: string)
    requires PlainSegment(s)
    ensures SlashFree(s)
  {
  }

  predicate AllPlain(segs: seq<string>) {
    forall i :: 0 <= i < |segs| ==> PlainSegment(segs[i])
  }

  /** The segments separated by '/'. */
  function Join(segs: seq<string>): string
    requires |segs| > 0
    decreases |segs|
  {
    if |segs| == 1 then segs[0] else segs[0] + "/" + Join(segs[1..])
  }

  /** The absolute path `/s0/s1/...` that the client's string templates produce. */
  function PathOf(segs: seq<string>): (p: string)
    requires |segs| > 0
    ensures |p| > 0 && p[0] == '/'
  {
    "/" + Join(segs)
  }

  /** Joining puts exactly one '/' between the first segment and the rest. */
  lemma JoinCons(s: string, rest: seq<string>)
    requires |rest| > 0
    ensures Join([s] + rest) == s + "/" + Join(rest)
  {
    assert ([s] + rest)[1..] == rest;
  }

  /** The path of two to six segments, spelled out as the client's string templates spell it. */
  lemma PathOfLiteral(a: string, b: string, c: string, d: string, e: string, f: string)
    ensures PathOf([a]) == "/" + a
    ensures PathOf([a, b]) == "/" + a + "/" + b
    ensures PathOf([a, b, c]) == "/" + a + "/" + b + "/" + c
    ensures PathOf([a, b, c, d]) == "/" + a + "/" + b + "/" + c + "/" + d
    ensures PathOf([a, b, c, d, e]) == "/" + a + "/" + b + "/" + c + "/" + d + "/" + e
    ensures PathOf([a, b, c, d, e, f]) == "/" + a + "/" + b + "/" + c + "/" + d + "/" + e + "/" + f
  {
    JoinCons(e, [f]);
    assert [e, f] == [e] + [f];
    JoinCons(d, [e, f]);
    assert [d, e, f] == [d] + [e, f];
    JoinCons(c, [d, e, f]);
    assert [c, d, e, f] == [c] + [d, e, f];
    JoinCons(b, [c, d, e, f]);
    assert [b, c, d, e, f] == [b] + [c, d, e, f];
    JoinCons(a, [b, c, d, e, f]);
    assert [a, b, c, d, e, f] == [a] + [b, c, d, e, f];
    JoinCons(d, [e]);
    assert [d, e] == [d] + [e];
    JoinCons(c, [d, e]);
    assert [c, d, e] == [c] + [d, e];
    JoinCons(b, [c, d, e]);
    assert [b, c, d, e] == [b] + [c, d, e];
    JoinCons(a, [b, c, d, e]);
    assert [a, b, c, d, e] == [a] + [b, c, d, e];
    JoinCons(c, [d]);
    assert [c, d] == [c] + [d];
    JoinCons(b, [c, d]);
    assert [b, c, d] == [b] + [c, d];
    JoinCons(a, [b, c, d]);
    assert [a, b, c, d] == [a] + [b, c, d];
    JoinCons(b, [c]);
    assert [b, c] == [b] + [c];
    JoinCons(a, [b, c]);
    assert [a, b, c] == [a] + [b, c];
    JoinCons(a, [b]);
    assert [a, b] == [a] + [b];
  }

  /** Splits at every '/'; an empty string is one empty segment. */
  function Split(s: string): (parts: seq<string>)
    ensures |parts| > 0
    ensures s == "" ==> parts == [""]
    decreases |s|
  {
    if |s| == 0 then [""]
    else if s[0] == '/' then [""] + Split(s[1..])
    else
      var rest := Split(s[1..]);
      [[s[0]] + rest[0]] + rest[1..]
  }

  /** The server's reading of an absolute path as its segments. */
  function ParsePath(p: string): (r: Option<seq<string>>)
    ensures r.Some? <==> |p| > 0 && p[0] == '/'
  {
    if |p| > 0 && p[0] == '/' then Some(Split(p[1..])) else None
  }

  lemma {:induction false} SplitSlashFree(s: string)
    requires SlashFree(s)
    ensures Split(s) == [s]
  {
    if |s| > 0 {
      assert SlashFree(s[1..]) by {
        forall i | 0 <= i < |s[1..]| ensures s[1..][i] != '/' {
          assert s[1..][i] == s[i + 1];
        }
      }
      SplitSlashFree(s[1..]);
      assert [s[0]] + s[1..] == s;
    }
  }

  lemma {:induction false} SplitAfterSegment(s: string, t: string)
    requires SlashFree(s)
    ensures Split(s + "/" + t) == [s] + Split(t)
  {
    var w := s + "/" + t;
    if |s| == 0 {
      assert w == "/" + t;
      assert w[1..] == t;
    } else {
      assert w[0] == s[0];
      assert w[1..] == s[1..] + "/" + t;
      assert SlashFree(s[1..]) by {
        forall i | 0 <= i < |s[1..]| ensures s[1..][i] != '/' {
          assert s[1..][i] == s[i + 1];
        }
      }
      SplitAfterSegment(s[1..], t);
      assert [s[0]] + s[1..] == s;
    }
  }

  /** Joining slash-free segments and splitting the result gives the segments back. */
  lemma {:induction false} SplitJoin(segs: seq<string>)
    requires |segs| > 0 && AllSlashFree(segs)
    ensures Split(Join(segs)) == segs
    decreases |segs|
  {
    if |segs| == 1 {
      SplitSlashFree(segs[0]);
    } else {
      assert SlashFree(segs[0]);
      assert AllSlashFree(segs[1..]) by {
        forall i | 0 <= i < |segs[1..]| ensures SlashFree(segs[1..][i]) {
          assert segs[1..][i] == segs[i + 1];
        }
      }
      SplitJoin(segs[1..]);
      SplitAfterSegment(segs[0], Join(segs[1..]));
      assert [segs[0]] + segs[1..] == segs;
    }
  }

  /** A path built from slash-free segments is read back as exactly those segments. */
  lemma ParsePathOf(segs: seq<string>)
    requires |segs| > 0 && AllSlashFree(segs)
    ensures ParsePath(PathOf(segs)) == Some(segs)
  {
    SplitJoin(segs);
    assert PathOf(segs)[1..] == Join(segs);
  }
}

/** The resources a path names, read segment by segment. */
module Routes {
  import opened Wrappers
  import opened Paths

  datatype Route =
    | PingRoute
    | AllTables
    | OneTable(table: string)
    | AllProperties(table: string)
    | OneProperty(table: string, property: string)
    | ObjectEvents(table: string, objectId: string)
    | OneEvent(table: string, objectId: string, stamp: string)
    | ObjectMerge(table: string, objectId: string)
    | TableQuery(table: string)
    | TableStats(table: string)

  /** The resource below `/tables/<table>/objects/<id>`. */
  function ObjectRoute(table: string, id: string, rest: seq<string>): Option<Route> {
    if rest == ["events"] then Some(ObjectEvents(table, id))
    else if |rest| == 2 && rest[0] == "events" then Some(OneEvent(table, id, rest[1]))
    else if rest == ["merge"] then Some(ObjectMerge(table, id))
    else None
  }

  /** The resource below `/tables/<table>`. */
  function TableRoute(table: string, rest: seq<string>): Option<Route> {
    if rest == [] then Some(OneTable(table))
    else if rest == ["properties"] then Some(AllProperties(table))
    else if |rest| == 2 && rest[0] == "properties" then Some(OneProperty(table, rest[1]))
    else if rest == ["query"] then Some(TableQuery(table))
    else if rest == ["stats"] then Some(TableStats(table))
    else if |rest| >= 2 && rest[0] == "objects" then ObjectRoute(table, rest[1], rest[2..])
    else None
  }

  function SegmentsRoute(segs: seq<string>): Option<Route> {
    if segs == ["ping"] then Some(PingRoute)
    else if segs == ["tables"] then Some(AllTables)
    else if |segs| >= 2 && segs[0] == "tables" then TableRoute(segs[1], segs[2..])
    else None
  }

  /** The resource a request path addresses, if any. */
  function RouteOf(path: string): Option<Route> {
    match ParsePath(path)
    case None => None
    case Some(segs) => SegmentsRoute(segs)
  }

  lemma RouteOfPath(segs: seq<string>)
    requires |segs| > 0 && AllSlashFree(segs)
    ensures RouteOf(PathOf(segs)) == SegmentsRoute(segs)
  {
    ParsePathOf(segs);
  }

  // One lemma per path template: its slash-free instances route to the resource.

  lemma TablesPathRoute()
    ensures RouteOf(PathOf(["tables"])) == Some(AllTables)
  {
    RouteOfPath(["tables"]);
  }

  lemma PingPathRoute()
    ensures RouteOf(PathOf(["ping"])) == Some(PingRoute)
  {
    RouteOfPath(["ping"]);
  }

  /** `/tables/<t>` followed by a fixed, slash-free suffix. */
  lemma TablePathRoute(t: string, suffix: seq<string>)
    requires SlashFree(t) && AllSlashFree(suffix)
    ensures RouteOf(PathOf(["tables", t] + suffix)) == TableRoute(t, suffix)
  {
    var segs := ["tables", t] + suffix;
    assert SlashFree("tables");
    assert AllSlashFree(segs) by {
      forall i | 0 <= i < |segs| ensures SlashFree(segs[i]) {
        if i >= 2 { assert segs[i] == suffix[i - 2]; }
      }
    }
    RouteOfPath(segs);
    assert segs[2..] == suffix;
  }

  lemma OneTableRoute(t: string)
    requires SlashFree(t)
    ensures RouteOf(PathOf(["tables", t])) == Some(OneTable(t))
  {
    TablePathRoute(t, []);
    assert ["tables", t] + [] == ["tables", t];
  }

  lemma AllPropertiesRoute(t: string)
    requires SlashFree(t)
    ensures RouteOf(PathOf(["tables", t, "properties"])) == Some(AllProperties(t))
  {
    TablePathRoute(t, ["properties"]);
    assert ["tables", t] + ["properties"] == ["tables", t, "properties"];
  }

  lemma OnePropertyRoute(t: string, p: string)
    requires SlashFree(t) && SlashFree(p)
    ensures RouteOf(PathOf(["tables", t, "properties", p])) == Some(OneProperty(t, p))
  {
    TablePathRoute(t, ["properties", p]);
    assert ["tables", t] + ["properties", p] == ["tables", t, "properties", p];
  }

  lemma QueryRoute(t: string)
    requires SlashFree(t)
    ensures RouteOf(PathOf(["tables", t, "query"])) == Some(TableQuery(t))
  {
    TablePathRoute(t, ["query"]);
    assert ["tables", t] + ["query"] == ["tables", t, "query"];
  }

  lemma StatsRoute(t: string)
    requires SlashFree(t)
    ensures RouteOf(PathOf(["tables", t, "stats"])) == Some(TableStats(t))
  {
    TablePathRoute(t, ["stats"]);
    assert ["tables", t] + ["stats"] == ["tables", t, "stats"];
  }

  lemma ObjectEventsRoute(t: string, id: string)
    requires SlashFree(t) && SlashFree(id)
    ensures RouteOf(PathOf(["tables", t, "objects", id, "events"])) == Some(ObjectEvents(t, id))
  {
    var suffix := ["objects", id, "events"];
    TablePathRoute(t, suffix);
    assert ["tables", t] + suffix == ["tables", t, "objects", id, "events"];
    assert suffix[2..] == ["events"];
  }

  lemma OneEventRoute(t: string, id: string, stamp: string)
    requires SlashFree(t) && SlashFree(id) && SlashFree(stamp)
    ensures RouteOf(PathOf(["tables", t, "objects", id, "events", stamp])) == Some(OneEvent(t, id, stamp))
  {
    var suffix := ["objects", id, "events", stamp];
    TablePathRoute(t, suffix);
    assert ["tables", t] + suffix == ["tables", t, "objects", id, "events", stamp];
    assert suffix[2..] == ["events", stamp];
  }

  lemma ObjectMergeRoute(t: string, id: string)
    requires SlashFree(t) && SlashFree(id)
    ensures RouteOf(PathOf(["tables", t, "objects", id, "merge"])) == Some(ObjectMerge(t, id))
  {
    var suffix := ["objects", id, "merge"];
    TablePathRoute(t, suffix);
    assert ["tables", t] + suffix == ["tables", t, "objects", id, "merge"];
    assert suffix[2..] == ["merge"];
  }
}

=== FILE: plans.dfy ===
/**
 * What each public operation of the client plans before anything reaches the
 * connection: either an `ArgumentError` raised locally, or exactly one request
 * (verb, path, body) followed by a mapping of the reply.
 */
module Plans {
  import opened Wrappers
  import opened Values
  import opened Http
  import opened Paths

  /** The entity classes a reply body is turned into (their `from_hash` is not modelled). */
  datatype Kind = TableKind | PropertyKind | EventKind

  /** How the reply body becomes the operation's return value. */
  datatype Mapping = ToNil | ToData | ToEntity(kind: Kind) | ToEntities(kind: Kind)

  datatype Plan = Reject(error: Error) | Issue(request: Request, mapping: Mapping)

  /** The `raise ArgumentError.new(message)` guarding a missing argument. */
  function Refuse(message: string): (p: Plan)
    ensures p.Reject? && p.error.ArgumentError? && p.error.message == message
  {
    Reject(ArgumentError(message))
  }

  // ---------------------------------------------------------------------------
  // Event insertion method
  // ---------------------------------------------------------------------------

  /** The `:method` option after `{:method => :merge}.merge(options)`; `None` is an absent key. */
  function EffectiveMethod(m: Option<RubyValue>): RubyValue {
    m.GetOr(Symbol("merge"))
  }

  /** The insertion mode a verb communicates to the server, if it communicates one. */
  function InsertionModeOf(v: Verb): Option<string> {
    match v
    case Put => Some("replace")
    case Patch => Some("merge")
    case _ => None
  }

  /**
   * The HTTP verb for an insertion method: only the Symbols `:replace` and
   * `:merge` are recognised (a String "merge" is not a Symbol and is refused).
   */
  function ResolveMethod(m: Option<RubyValue>): (r: Result<Verb, Error>)
    ensures r.Success? <==> EffectiveMethod(m) == Symbol("merge") || EffectiveMethod(m) == Symbol("replace")
    ensures r.Success? ==> InsertionModeOf(r.value) == Some(EffectiveMethod(m).name)
    ensures r.Failure? ==> r.error == ArgumentError("Invalid event insertion method: " + EffectiveMethod(m).ToS())
  {
    var chosen := EffectiveMethod(m);
    if chosen == Symbol("replace") then Success(Put)
    else if chosen == Symbol("merge") then Success(Patch)
    else Failure(ArgumentError("Invalid event insertion method: " + chosen.ToS()))
  }

  /** Each verb that carries an insertion mode is what that mode resolves to. */
  lemma InsertionModeRoundTrip(v: Verb)
    requires InsertionModeOf(v).Some?
    ensures ResolveMethod(Some(Symbol(InsertionModeOf(v).value))) == Success(v)
  {
  }

  /** Leaving the option out is the same as asking for `:merge`, which is sent as PATCH. */
  lemma DefaultMethodIsMerge()
    ensures ResolveMethod(None) == ResolveMethod(Some(Symbol("merge"))) == Success(Patch)
  {
  }

  // ---------------------------------------------------------------------------
  // Query payload
  // ---------------------------------------------------------------------------

  /** A bare Array of steps is wrapped as `{steps: q}`; anything else is sent as it is. */
  function QueryPayload(q: Json): (p: Json)
    ensures !p.JArr?
    ensures p == q || (q.JArr? && p == JObj([("steps", q)]))
  {
    if q.JArr? then JObj([("steps", q)]) else q
  }

  /** Wrapping is idempotent: a payload that has been prepared is sent unchanged. */
  lemma QueryPayloadIdempotent(q: Json)
    ensures QueryPayload(QueryPayload(q)) == QueryPayload(q)
  {
  }

  // ---------------------------------------------------------------------------
  // Table API
  // ---------------------------------------------------------------------------

  function GetTables(): (p: Plan)
    ensures p.Issue? && p.request.verb == Get && p.request.payload.None?
    ensures p.mapping == ToEntities(TableKind)
  {
    Issue(Request(Get, PathOf(["tables"]), None), ToEntities(TableKind))
  }

  function GetTable(name: Option<string>): (p: Plan)
    ensures p.Reject? <==> name.None?
    ensures p.Reject? ==> p.error == ArgumentError("Table name required")
    ensures p.Issue? ==> p.request.verb == Get && p.request.payload.None? && p.mapping == ToEntity(TableKind)
  {
    if name.None? then Refuse("Table name required")
    else Issue(Request(Get, PathOf(["tables", name.value]), None), ToEntity(TableKind))
  }

  function CreateTable(table: Loose<Table>): (p: Plan)
    ensures p.Reject? <==> table.Nil?
    ensures p.Reject? ==> p.error == ArgumentError("Table required")
    ensures p.Issue? ==> p.request.verb == Post && p.request.payload == Some(TableDoc(table.Coerced()))
    ensures p.Issue? ==> p.mapping == ToEntity(TableKind)
  {
    if table.Nil? then Refuse("Table required")
    else Issue(Request(Post, PathOf(["tables"]), Some(TableDoc(table.Coerced()))), ToEntity(TableKind))
  }

  function DeleteTable(table: Loose<Table>): (p: Plan)
    ensures p.Reject? <==> table.Nil?
    ensures p.Reject? ==> p.error == ArgumentError("Table required")
    ensures p.Issue? ==> p.request.verb == Delete && p.request.payload.None? && p.mapping == ToNil
  {
    if table.Nil? then Refuse("Table required")
    else Issue(Request(Delete, PathOf(["tables", table.Coerced().name]), None), ToNil)
  }

  /** The table paths, spelled out as the client's string templates spell them, for any name. */
  lemma TablePathsLiteral(name: string, table: Loose<Table>)
    ensures GetTables().request.path == "/tables"
    ensures GetTable(Some(name)).request.path == "/tables/" + name
    ensures !table.Nil? ==> CreateTable(table).request.path == "/tables"
    ensures !table.Nil? ==> DeleteTable(table).request.path == "/tables/" + table.Coerced().name
  {
    PathOfLiteral("tables", name, "", "", "", "");
    if !table.Nil? {
      PathOfLiteral("tables", table.Coerced().name, "", "", "", "");
    }
  }

  // ---------------------------------------------------------------------------
  // Property API
  // ---------------------------------------------------------------------------

  function GetProperties(table: Option<Table>): (p: Plan)
    ensures p.Reject? <==> table.None?
    ensures p.Reject? ==> p.error == ArgumentError("Table required")
    ensures p.Issue? ==> p.request.verb == Get && p.request.payload.None? && p.mapping == ToEntities(PropertyKind)
  {
    if table.None? then Refuse("Table required")
    else Issue(Request(Get, PathOf(["tables", table.value.name, "properties"]), None), ToEntities(PropertyKind))
  }

  /** Fetches one property; the name is interpolated as it is, nil included (no name check). */
  function GetProperty(table: Option<Table>, name: Option<string>): (p: Plan)
    ensures p.Reject? <==> table.None?
    ensures p.Reject? ==> p.error == ArgumentError("Table required")
    ensures p.Issue? ==> p.request.verb == Get && p.request.payload.None? && p.mapping == ToEntity(PropertyKind)
  {
    if table.None? then Refuse("Table required")
    else Issue(Request(Get, PathOf(["tables", table.value.name, "properties", ToS(name)]), None), ToEntity(PropertyKind))
  }

  function CreateProperty(table: Option<Table>, property: Loose<Property>): (p: Plan)
    ensures p.Reject? <==> table.None? || property.Nil?
    ensures p.Reject? ==> p.error == ArgumentError(if table.None? then "Table required" else "Property required")
    ensures p.Issue? ==> p.request.verb == Post && p.request.payload == Some(PropertyDoc(property.Coerced()))
    ensures p.Issue? ==> p.mapping == ToEntity(PropertyKind)
  {
    if table.None? then Refuse("Table required")
    else if property.Nil? then Refuse("Property required")
    else
      var prop := property.Coerced();
      Issue(Request(Post, PathOf(["tables", table.value.name, "properties"]), Some(PropertyDoc(prop))),
            ToEntity(PropertyKind))
  }

  /** The guard on a property's name: `property.name.to_s == ''` refuses nil and "". */
  predicate BlankName(prop: Property) {
    ToS(prop.name) == ""
  }

  /**
   * Updates a property. The Hash is converted before its name is read (the
   * intended order; the code as written reads the name first, see `AsWritten`).
   */
  function UpdateProperty(table: Option<Table>, property: Loose<Property>): (p: Plan)
    ensures p.Reject? <==> table.None? || property.Nil? || BlankName(property.Coerced())
    ensures p.Reject? ==> p.error == ArgumentError(
      if table.None? then "Table required"
      else if property.Nil? then "Property required"
      else "Property name required")
    ensures p.Issue? ==> p.request.verb == Patch && p.request.payload == Some(PropertyDoc(property.Coerced()))
    ensures p.Issue? ==> p.mapping == ToEntity(PropertyKind)
  {
    if table.None? then Refuse("Table required")
    else if property.Nil? then Refuse("Property required")
    else
      var prop := property.Coerced();
      if BlankName(prop) then Refuse("Property name required")
      else Issue(Request(Patch, PathOf(["tables", table.value.name, "properties", ToS(prop.name)]),
                         Some(PropertyDoc(prop))),
                 ToEntity(PropertyKind))
  }

  /** Deletes a property, with the same checks as `UpdateProperty`. */
  function DeleteProperty(table: Option<Table>, property: Loose<Property>): (p: Plan)
    ensures p.Reject? <==> table.None? || property.Nil? || BlankName(property.Coerced())
    ensures p.Reject? ==> p.error == ArgumentError(
      if table.None? then "Table required"
      else if property.Nil? then "Property required"
      else "Property name required")
    ensures p.Issue? ==> p.request.verb == Delete && p.request.payload.None? && p.mapping == ToNil
  {
    if table.None? then Refuse("Table required")
    else if property.Nil? then Refuse("Property required")
    else
      var prop := property.Coerced();
      if BlankName(prop) then Refuse("Property name required")
      else Issue(Request(Delete, PathOf(["tables", table.value.name, "properties", ToS(prop.name)]), None), ToNil)
  }

  /** A Hash and the entity it converts to are planned identically. */
  lemma PropertyHashLikeEntity(table: Option<Table>, prop: Property)
    ensures UpdateProperty(table, Hash(prop)) == UpdateProperty(table, Entity(prop))
    ensures DeleteProperty(table, Hash(prop)) == DeleteProperty(table, Entity(prop))
  {
  }

  /**
   * The property paths for any table and property name; a nil name interpolates
   * as the empty string.
   */
  lemma PropertyPathsLiteral(t: Table, name: Option<string>, property: Loose<Property>)
    ensures GetProperties(Some(t)).request.path == "/tables/" + t.name + "/properties"
    ensures GetProperty(Some(t), name).request.path == "/tables/" + t.name + "/properties/" + ToS(name)
    ensures !property.Nil? ==> CreateProperty(Some(t), property).request.path == "/tables/" + t.name + "/properties"
    ensures UpdateProperty(Some(t), property).Issue? ==>
      UpdateProperty(Some(t), property).request.path == "/tables/" + t.name + "/properties/" + ToS(property.Coerced().name)
    ensures DeleteProperty(Some(t), property).Issue? ==>
      DeleteProperty(Some(t), property).request.path == "/tables/" + t.name + "/properties/" + ToS(property.Coerced().name)
  {
    PathOfLiteral("tables", t.name, "properties", ToS(name), "", "");
    if !property.Nil? {
      PathOfLiteral("tables", t.name, "properties", ToS(property.Coerced().name), "", "");
    }
  }

  // ---------------------------------------------------------------------------
  // Object and event API
  // ---------------------------------------------------------------------------

  /** The body of a merge request: the source object's identifier. */
  function MergeBody(src: string): Json {
    JObj([("id", JStr(src))])
  }

  function MergeObjects(table: Option<Table>, dest: Option<string>, src: Option<string>): (p: Plan)
    ensures p.Reject? <==> table.None? || dest.None? || src.None?
    ensures p.Reject? ==> p.error == ArgumentError(
      if table.None? then "Table required"
      else if dest.None? then "Destination object identifier required"
      else "Source object identifier required")
    ensures p.Issue? ==> p.request.verb == Post && p.request.payload == Some(Body(MergeBody(src.value)))
    ensures p.Issue? ==> p.mapping == ToNil
  {
    if table.None? then Refuse("Table required")
    else if dest.None? then Refuse("Destination object identifier required")
    else if src.None? then Refuse("Source object identifier required")
    else Issue(Request(Post, PathOf(["tables", table.value.name, "objects", dest.value, "merge"]),
                       Some(Body(MergeBody(src.value)))),
               ToNil)
  }

  function GetEvents(table: Option<Table>, objectId: Option<string>): (p: Plan)
    ensures p.Reject? <==> table.None? || objectId.None?
    ensures p.Reject? ==> p.error == ArgumentError(if table.None? then "Table required" else "Object identifier required")
    ensures p.Issue? ==> p.request.verb == Get && p.request.payload.None? && p.mapping == ToEntities(EventKind)
  {
    if table.None? then Refuse("Table required")
    else if objectId.None? then Refuse("Object identifier required")
    else Issue(Request(Get, PathOf(["tables", table.value.name, "objects", objectId.value, "events"]), None),
               ToEntities(EventKind))
  }

  /** The path of one event: the timestamp appears in its formatted form. */
  function EventPath(table: Table, objectId: string, stamp: string): string {
    PathOf(["tables", table.name, "objects", objectId, "events", stamp])
  }

  function GetEvent(table: Option<Table>, objectId: Option<string>, timestamp: Option<Instant>,
                    format: Instant -> string): (p: Plan)
    ensures p.Reject? <==> table.None? || objectId.None? || timestamp.None?
    ensures p.Reject? ==> p.error == ArgumentError(
      if table.None? then "Table required"
      else if objectId.None? then "Object identifier required"
      else "Timestamp required")
    ensures p.Issue? ==> p.request.verb == Get && p.request.payload.None? && p.mapping == ToEntity(EventKind)
  {
    if table.None? then Refuse("Table required")
    else if objectId.None? then Refuse("Object identifier required")
    else if timestamp.None? then Refuse("Timestamp required")
    else Issue(Request(Get, EventPath(table.value, objectId.value, format(timestamp.value)), None),
               ToEntity(EventKind))
  }

  /**
   * Adds an event. The arguments are checked first, then the insertion method
   * is resolved; only then is the request built.
   */
  function AddEvent(table: Option<Table>, objectId: Option<string>, event: Loose<Event>,
                    mode: Option<RubyValue>, format: Instant -> string): (p: Plan)
    ensures p.Reject? <==> table.None? || objectId.None? || event.Nil? ||
                           event.Coerced().timestamp.None? || ResolveMethod(mode).Failure?
    ensures p.Reject? ==> p.error == ArgumentError(
      if table.None? then "Table required"
      else if objectId.None? then "Object identifier required"
      else if event.Nil? then "Event required"
      else if event.Coerced().timestamp.None? then "Event timestamp required"
      else "Invalid event insertion method: " + EffectiveMethod(mode).ToS())
    ensures p.Issue? ==> ResolveMethod(mode) == Success(p.request.verb)
    ensures p.Issue? ==> p.request.payload == Some(EventDoc(event.Coerced()))
    ensures p.Issue? ==> p.mapping == ToEntity(EventKind)
  {
    if table.None? then Refuse("Table required")
    else if objectId.None? then Refuse("Object identifier required")
    else if event.Nil? then Refuse("Event required")
    else
      var ev := event.Coerced();
      if ev.timestamp.None? then Refuse("Event timestamp required")
      else
        match ResolveMethod(mode)
        case Failure(e) => Reject(e)
        case Success(verb) =>
          Issue(Request(verb, EventPath(table.value, objectId.value, format(ev.timestamp.value)), Some(EventDoc(ev))),
                ToEntity(EventKind))
  }

  /** The argument checks run before the insertion method is resolved. */
  lemma ArgumentChecksPrecedeMethod(table: Table, ev: Event, format: Instant -> string)
    ensures AddEvent(Some(table), None, Entity(ev), Some(Symbol("bogus")), format)
         == Reject(ArgumentError("Object identifier required"))
  {
  }

  function DeleteEvent(table: Option<Table>, objectId: Option<string>, event: Loose<Event>,
                       format: Instant -> string): (p: Plan)
    ensures p.Reject? <==> table.None? || objectId.None? || event.Nil? || event.Coerced().timestamp.None?
    ensures p.Reject? ==> p.error == ArgumentError(
      if table.None? then "Table required"
      else if objectId.None? then "Object identifier required"
      else if event.Nil? then "Event required"
      else "Event timestamp required")
    ensures p.Issue? ==> p.request.verb == Delete && p.request.payload.None? && p.mapping == ToNil
  {
    if table.None? then Refuse("Table required")
    else if objectId.None? then Refuse("Object identifier required")
    else if event.Nil? then Refuse("Event required")
    else
      var ev := event.Coerced();
      if ev.timestamp.None? then Refuse("Event timestamp required")
      else Issue(Request(Delete, EventPath(table.value, objectId.value, format(ev.timestamp.value)), None), ToNil)
  }

  /** Reading, writing and deleting the event at one timestamp all address the same path. */
  lemma EventOperationsShareAddress(table: Table, objectId: string, ev: Event, mode: Option<RubyValue>,
                                    format: Instant -> string)
    requires ev.timestamp.Some? && ResolveMethod(mode).Success?
    ensures GetEvent(Some(table), Some(objectId), ev.timestamp, format).Issue?
    ensures AddEvent(Some(table), Some(objectId), Entity(ev), mode, format).Issue?
    ensures DeleteEvent(Some(table), Some(objectId), Entity(ev), format).Issue?
    ensures AddEvent(Some(table), Some(objectId), Entity(ev), mode, format).request.path
         == GetEvent(Some(table), Some(objectId), ev.timestamp, format).request.path
         == DeleteEvent(Some(table), Some(objectId), Entity(ev), format).request.path
  {
  }

  /** The merge path for any table name and destination identifier: nothing is escaped. */
  lemma MergePathLiteral(t: Table, dest: string, src: string)
    ensures MergeObjects(Some(t), Some(dest), Some(src)).request.path == "/tables/" + t.name + "/objects/" + dest + "/merge"
  {
    PathOfLiteral("tables", t.name, "objects", dest, "merge", "");
  }

  /** The event-reading paths for any table name, object identifier and formatted timestamp. */
  lemma EventReadPathsLiteral(t: Table, id: string, ts: Instant, format: Instant -> string)
    ensures GetEvents(Some(t), Some(id)).request.path == "/tables/" + t.name + "/objects/" + id + "/events"
    ensures GetEvent(Some(t), Some(id), Some(ts), format).request.path
         == "/tables/" + t.name + "/objects/" + id + "/events/" + format(ts)
  {
    PathOfLiteral("tables", t.name, "objects", id, "events", "");
    EventPathLiteral(t, id, format(ts));
  }

  /** The path of one event, spelled out as the client's string templates spell it. */
  lemma EventPathLiteral(t: Table, id: string, stamp: string)
    ensures EventPath(t, id, stamp) == "/tables/" + t.name + "/objects/" + id + "/events/" + stamp
  {
    PathOfLiteral("tables", t.name, "objects", id, "events", stamp);
  }

  /**
   * Names are interpolated unescaped, so a '/' inside a name makes two different
   * (table, object) pairs list the events at the same path: the table
   * `t/objects/x` with object `id`, and the table `t` with object `x/objects/id`.
   */
  lemma SlashInNameIsAmbiguous(t: string, x: string, id: string)
    ensures GetEvents(Some(Table(t + "/" + ("objects" + "/" + x))), Some(id)).request.path
         == GetEvents(Some(Table(t)), Some((x + "/" + "objects") + "/" + id)).request.path
  {
    var format := (i: Instant) => "";
    EventReadPathsLiteral(Table(t + "/" + ("objects" + "/" + x)), id, Instant(0), format);
    EventReadPathsLiteral(Table(t), (x + "/" + "objects") + "/" + id, Instant(0), format);
  }

  /** Adding an event addresses the path of its formatted timestamp, whatever the names hold. */
  lemma AddEventPathLiteral(t: Table, id: string, event: Loose<Event>, mode: Option<RubyValue>,
                              format: Instant -> string)
    ensures AddEvent(Some(t), Some(id), event, mode, format).Issue? ==>
      AddEvent(Some(t), Some(id), event, mode, format).request.path
        == "/tables/" + t.name + "/objects/" + id + "/events/" + format(event.Coerced().timestamp.value)
  {
    if AddEvent(Some(t), Some(id), event, mode, format).Issue? {
      EventPathLiteral(t, id, format(event.Coerced().timestamp.value));
    }
  }

  /** Deleting an event addresses the path of its formatted timestamp, whatever the names hold. */
  lemma DeleteEventPathLiteral(t: Table, id: string, event: Loose<Event>, format: Instant -> string)
    ensures DeleteEvent(Some(t), Some(id), event, format).Issue? ==>
      DeleteEvent(Some(t), Some(id), event, format).request.path
        == "/tables/" + t.name + "/objects/" + id + "/events/" + format(event.Coerced().timestamp.value)
  {
    if DeleteEvent(Some(t), Some(id), event, format).Issue? {
      EventPathLiteral(t, id, format(event.Coerced().timestamp.value));
    }
  }

  // ---------------------------------------------------------------------------
  // Query API
  // ---------------------------------------------------------------------------

  /** Submits a query definition; nil (`JNull`) is refused, any other value is accepted. */
  function Query(table: Option<Table>, q: Json): (p: Plan)
    ensures p.Reject? <==> table.None? || q.JNull?
    ensures p.Reject? ==> p.error == ArgumentError(if table.None? then "Table required" else "Query definition required")
    ensures p.Issue? ==> p.request.verb == Post && p.mapping == ToData
    ensures p.Issue? ==> p.request.payload == Some(Body(QueryPayload(q)))
  {
    if table.None? then Refuse("Table required")
    else if q.JNull? then Refuse("Query definition required")
    else Issue(Request(Post, PathOf(["tables", table.value.name, "query"]), Some(Body(QueryPayload(q)))), ToData)
  }

  /** A bare step Array and a `{steps: ...}` definition holding it send the same request. */
  lemma StepsArrayLikeStepsObject(table: Table, steps: seq<Json>)
    ensures Query(Some(table), JArr(steps)) == Query(Some(table), JObj([("steps", JArr(steps))]))
  {
  }

  function Stats(table: Option<Table>): (p: Plan)
    ensures p.Reject? <==> table.None?
    ensures p.Reject? ==> p.error == ArgumentError("Table required")
    ensures p.Issue? ==> p.request.verb == Get && p.request.payload.None? && p.mapping == ToData
  {
    if table.None? then Refuse("Table required")
    else Issue(Request(Get, PathOf(["tables", table.value.name, "stats"]), None), ToData)
  }

  /** The query and stats paths for any table name. */
  lemma QueryPathsLiteral(t: Table, q: Json)
    ensures !q.JNull? ==> Query(Some(t), q).request.path == "/tables/" + t.name + "/query"
    ensures Stats(Some(t)).request.path == "/tables/" + t.name + "/stats"
  {
    PathOfLiteral("tables", t.name, "query", "", "", "");
    PathOfLiteral("tables", t.name, "stats", "", "", "");
  }
}

=== FILE: values.dfy ===
/**
 * The values the client passes around: JSON documents, the entity records
 * (tables, properties, events) whose classes live outside the client, the
 * "Hash or entity" arguments the client accepts, and the error taxonomy.
 */
module Values {
  import opened Wrappers

  /** A JSON document as sent to or received from the server (numbers are integers here). */
  datatype Json =
    | JNull
    | JBool(b: bool)
    | JNum(n: int)
    | JStr(s: string)
    | JArr(items: seq<Json>)
    | JObj(members: seq<(string, Json)>)

  /** Ruby's `to_s` on a value that is either nil or already a string: nil prints as "". */
  function ToS(v: Option<string>): string {
    match v
    case None => ""
    case Some(s) => s
  }

  /** A point in time; its textual form is produced by a formatter the client receives. */
  datatype Instant = Instant(micros: int)

  /** A table, identified by its name. */
  datatype Table = Table(name: string)

  /** A property of a table; its name may be nil or empty on a record the caller built. */
  datatype Property = Property(name: Option<string>, transient: bool, dataType: string)

  /** An event of one object; its timestamp may be nil on a record the caller built. */
  datatype Event = Event(timestamp: Option<Instant>, data: seq<(string, Json)>)

  /**
   * An argument the client accepts either as an entity or as a plain Hash.
   * `Hash(fields)` is the Hash that the entity's constructor turns into `fields`;
   * the difference matters only where the client calls an entity accessor on it.
   */
  datatype Loose<+E> = Nil | Entity(entity: E) | Hash(fields: E) {

    /** The entity after the client's `E.new(hash) if hash.is_a?(Hash)` conversion. */
    function Coerced(): E
      requires !Nil?
    {
      match this
      case Entity(e) => e
      case Hash(f) => f
    }
  }

  /** A Ruby option value as it can appear in an options Hash. */
  datatype RubyValue = Symbol(name: string) | Text(text: string) | NilValue {

    /** Ruby's `to_s`, as used by string interpolation. */
    function ToS(): string {
      match this
      case Symbol(n) => n
      case Text(t) => t
      case NilValue => ""
    }
  }

  /** Everything the client or its connection can raise. */
  datatype Error =
    | ArgumentError(message: string)
    | SkyError(message: string)
    | ServerError(status: int, reason: Option<string>)
    | NoMethodError(selector: string)
    | TransportError(description: string)
}

=== FILE: wrappers.dfy ===
/** Plain Option and Result types: Ruby's nil becomes `None`, a raised exception a `Failure`. */
module Wrappers {

  /** An optional value; `None` stands for Ruby's `nil`. */
  datatype Option<+T> = None | Some(value: T) {

    /** The value, or `default` when absent (Ruby's `x || default` for non-boolean `x`). */
    function GetOr(default: T): T {
      match this
      case Some(v) => v
      case None => default
    }
  }

  /** Either a computed value or the error that was raised instead. */
  datatype Result<+R, +E> = Success(value: R) | Failure(error: E)
}
